=== FILE: README.md ===
# metamask-link: query decoder, deep-link rewrite and compose editor

This project models, in Dafny, the three pieces of the metamask-link web
front-end whose behaviour can be stated precisely:

- the **scalar decoder** that the `useQueryParams` hook hands to the
  query-string parser (`src/hooks/useQueryString.ts`): an optional sign and
  digits become an integer, exactly `false`/`true` become booleans, anything
  else is percent-decoded with `decodeURIComponent`, whose `URIError` aborts
  the parse; plus the `depth || 100` default;
- the **auto-execute page** (`src/pages/deep.tsx`): the install-dialog,
  mobile-redirect and auto-request guards, the scheme-stripping rewrite of
  `location.href` into a `https://metamask.app.link/dapp/` link, and the
  "Create your own link" target;
- the **compose page** (`src/pages/index.tsx`): an editor state of stored
  text plus address bar, where an edit is accepted only if it parses as JSON
  (last known good), and the QR payload, link target and link text are the
  one share link `base + "?" + qs.stringify(JSON.parse(stored))`.

Modules: `Wrappers` (Option), `Ascii`, `Decimal` (numerals, used as a
reference for the integer branch), `Utf8` (RFC 3629), `UriDecode`
(`decodeURIComponent` and, as its partner, `encodeURIComponent`),
`JsonValues` (JavaScript values and truthiness), `QueryHook`, `Browser`
(location and environment records), `Guards` (decisions shared by both
pages), `DeepPage`, `ComposePage`.

The query-string library's `parse` stays abstract: it is given as `split`
(search string to raw key/value parts) and `assemble` (decoded parts and depth
to the nested object). Around them the model states what the hook relies on:
the decoder is called on every key and on every value that has an `=`, a part
without `=` gets the value `""` without a decoder call, a thrown `URIError` is
not caught, and an absent or empty search string yields `{}`.
`JSON.parse`, `JSON.stringify(_, null, 4)` and `qs.stringify(_, {encode: false})`
are the abstract function fields of `ComposePage.Codecs`.

Points where the code behaves differently from what a reader might expect:
- the integer pattern `^([+-]?[0-9]\d*|0)$` accepts leading zeros (`007` is 7);
  the `|0` alternative adds nothing;
- a malformed escape is not recovered from: the decoder's `URIError` leaves
  the parser and the hook, so the auto-execute page fails to render and no
  effect runs (`DeepPage.Load` returns `Crashed`);
- a request is sent when `method` is truthy, not merely non-empty: `method=0`,
  `method=-0`, `method=false` and `method=` send nothing;
- the compose page calls the hook without a search string, so its query is
  always `{}`: it never auto-sends a request and its editor starts at
  `JSON.stringify({}, null, 4)`, whatever the address bar holds.

## Model

| member | source | states |
|---|---|---|
| QueryHook.EffectiveDepth | src/hooks/useQueryString.ts:9 | the depth passed to the parser is never 0: the caller's depth when non-zero, 100 when omitted or 0 |
| QueryHook.DecodeScalar | src/hooks/useQueryString.ts:10-21 | integer exactly when the pattern matches; boolean exactly for `false`/`true` with the value `true` iff the word is `true`; text is the percent-decoding of the input; failure exactly when no earlier branch applies and percent-decoding fails |
| QueryHook.IntegerShape | src/hooks/useQueryString.ts:11 | a string is read as an integer iff it is non-empty, starts with a digit or with a sign followed by something, and every later character is an ASCII digit |
| QueryHook.SignedDigitsValue | src/hooks/useQueryString.ts:11-12 | `""`, `+` or `-` followed by any non-empty digit run decodes to that run's base-10 value, negated for `-` |
| QueryHook.IntegerRoundTrip | src/hooks/useQueryString.ts:11-12 | the decimal numeral of every integer decodes back to that integer |
| QueryHook.LeadingZerosAccepted | src/hooks/useQueryString.ts:11-12 | any number of leading zeros before a numeral is accepted and ignored |
| QueryHook.IntegerExamples | src/hooks/useQueryString.ts:11-12 | `007` is 7, `+5` is 5, `-12` is -12, `0` is 0 |
| QueryHook.NonIntegerExamples | src/hooks/useQueryString.ts:11 | `""`, `+`, `1.5`, `1e3`, ` 1` and `0x10` are not integers |
| QueryHook.BooleansExact | src/hooks/useQueryString.ts:14-19 | the decoder yields `true` iff the input is exactly `true`, and `false` iff exactly `false` |
| QueryHook.TextExamples | src/hooks/useQueryString.ts:14-20 | `True` and `FALSE` fall through to text, `a+b` stays `a+b`, `%zz` is a failure |
| QueryHook.PlainTextUnchanged | src/hooks/useQueryString.ts:20 | a non-integer, non-boolean string without `%` decodes to itself as text; `+` is not turned into a space |
| QueryHook.MalformedEscapeIsError | src/hooks/useQueryString.ts:20 | a `%` anywhere that is not followed by two hex digits makes the decoder fail |
| QueryHook.TruncatedUtf8IsError | src/hooks/useQueryString.ts:20 | a value starting with a multi-byte lead whose continuation escapes stop early (`%E2%82`, `%C3x`, a lone `%E2`) makes the decoder fail |
| QueryHook.IllFormedUtf8IsError | src/hooks/useQueryString.ts:20 | a value starting with escapes of ill-formed UTF-8 (`%C3%28`, `%E0%80%80`, `%ED%A0%80`, `%F4%90%80%80`) makes the decoder fail |
| QueryHook.TextRoundTrip | src/hooks/useQueryString.ts:20 | every text that is not an integer numeral or a boolean word comes back unchanged from `encodeURIComponent` followed by the decoder |
| QueryHook.DecodePairs | src/hooks/useQueryString.ts:7-22 | decoding all parts succeeds iff the decoder succeeds on every key and every present value; the result keeps order and length, a part without `=` gets `""` |
| QueryHook.ParseQuery | src/hooks/useQueryString.ts:5-24 | an absent or empty search gives `{}`; otherwise the hook fails iff some part fails to decode, and else returns the assembled object at the effective depth |
| QueryHook.DecodedTruthiness | src/hooks/useQueryString.ts:10-21 | a decoded value is truthy iff the raw text is not empty, not `false`, and not a numeral of zeros only |
| UriDecode.PercentDecode | src/hooks/useQueryString.ts:20 | the decoded text is never longer than the input |
| UriDecode.DecodeEscape | src/hooks/useQueryString.ts:20 | a decoded escape group takes up at least three characters and no more than the input has |
| UriDecode.NoPercentUnchanged | src/hooks/useQueryString.ts:20 | text without `%` decodes to itself |
| UriDecode.MalformedEscapeFails | src/hooks/useQueryString.ts:20 | a `%` anywhere in the input not followed by two hex digits is a failure, never a pass-through |
| UriDecode.TruncatedFails | src/hooks/useQueryString.ts:20 | a lead byte announcing two to four bytes followed by fewer continuation escapes, then the end of the input or non-escape text, is a failure |
| UriDecode.BadLeadByteFails | src/hooks/useQueryString.ts:20 | an escape for a continuation byte, the overlong leads C0/C1, or F5 and above is a failure |
| UriDecode.IllFormedEscapesFail | src/hooks/useQueryString.ts:20 | escapes of a two- to four-byte lead whose bytes are not well-formed UTF-8 (bad continuation, overlong, surrogate, above U+10FFFF) are a failure, whatever follows |
| UriDecode.EmptyOnlyFromEmpty | src/hooks/useQueryString.ts:20 | decoding yields the empty text iff the input is empty |
| UriDecode.DecodeAnyCase | src/hooks/useQueryString.ts:20 | escapes of a character's UTF-8 bytes decode to that character whether their hex digits are upper-case, lower-case or mixed, whatever follows |
| UriDecode.LowerCaseExamples | src/hooks/useQueryString.ts:20 | `%2f` decodes to `/` and `%c3%a9` to `é` |
| UriDecode.PlainPrefix | src/hooks/useQueryString.ts:20 | text without `%` is copied through in front of whatever the rest decodes to, and a failure of the rest is a failure of the whole |
| UriDecode.EncodeDecodeRoundTrip | src/hooks/useQueryString.ts:20 | `decodeURIComponent(encodeURIComponent(t)) == t` for every string of Unicode scalar values |
| Utf8.CodePoint | src/hooks/useQueryString.ts:20 | a well-formed UTF-8 sequence always denotes a Unicode scalar value (no surrogate, at most U+10FFFF) |
| Utf8.EncodeWellFormed | src/hooks/useQueryString.ts:20 | the UTF-8 encoding of a scalar value is well-formed, decodes back to it, and its lead byte announces its length |
| Utf8.CodePointEncode | src/hooks/useQueryString.ts:20 | every well-formed sequence is the encoding of the code point it denotes |
| Guards.ShowInstallDialog | src/pages/deep.tsx:37-38 | the install dialog is shown iff not (a provider is present and its `isMetaMask` is truthy); the compose page uses the same rule at src/pages/index.tsx lines 53-54 |
| Guards.RedirectsToApp | src/pages/deep.tsx:43 | the page redirects iff the device is mobile and no provider is present |
| Guards.AutoRequest | src/pages/deep.tsx:51-52 | a request is sent iff a provider is present and the query's `method` is truthy, and its argument is the decoded object itself; the compose page has the same effect at src/pages/index.tsx lines 59-60 |
| Guards.RedirectExcludesRequest | src/pages/deep.tsx:37-52 | a redirected device sends no request and sees the install dialog |
| DeepPage.WordRun | src/pages/deep.tsx:45 | the greedy `\w+` run: every character in it is a word character and the next one is not |
| DeepPage.StripScheme | src/pages/deep.tsx:45 | the result is a suffix of the input, and either the input unchanged or the input minus a leading `//` or `word://` prefix |
| DeepPage.StripWordScheme | src/pages/deep.tsx:45 | word characters followed by `://` lose exactly that prefix, whatever follows |
| DeepPage.StripSlashes | src/pages/deep.tsx:45 | a leading `//` loses exactly those two characters |
| DeepPage.StripOtherUnchanged | src/pages/deep.tsx:45 | a URL without a removable prefix at position 0 is unchanged |
| DeepPage.StripHttpsExample | src/pages/deep.tsx:45 | `https://a.b/x` becomes `a.b/x` |
| DeepPage.StripOnlyFirstScheme | src/pages/deep.tsx:45 | `https://http://x` loses only the first scheme |
| DeepPage.StripKeepsPlusScheme | src/pages/deep.tsx:45 | `git+ssh://host` is unchanged |
| DeepPage.StripKeepsLaterSlashes | src/pages/deep.tsx:45 | `//` after position 0 is not removed |
| DeepPage.RedirectUrl | src/pages/deep.tsx:46 | the redirect target is `https://metamask.app.link/dapp/` followed by the stripped URL |
| DeepPage.RedirectFromLocation | src/pages/deep.tsx:44-46 | for an `https:`-like protocol the redirect target is the app-link prefix followed by host, path, search and fragment |
| DeepPage.CreateOwnLink | src/pages/deep.tsx:73 | the route (the link's `to` value, served under the site's path prefix) is `/` followed by the page's search string, verbatim |
| DeepPage.Load | src/pages/deep.tsx:33-53 | loading fails iff the query fails to decode; otherwise the install dialog, redirect (to the rewritten `href`) and request follow their guards, a redirect never comes with a request, and the own link is built from the page's own query |
| DeepPage.DecodedMethodRequest | src/pages/deep.tsx:51-52 | for a decoded `method`, a request is sent iff a provider is present and the raw text is not empty, not `false`, and not all zeros (`method=0` sends nothing) |
| ComposePage.BaseUrl | src/pages/index.tsx:33-37 | the base is `href` with the search string and fragment removed |
| ComposePage.BaseIgnoresSearch | src/pages/index.tsx:35 | the base does not change when the search string or fragment changes |
| ComposePage.Edit | src/pages/index.tsx:73-80 | text that fails to parse changes nothing; text that parses becomes the stored text, and the address bar becomes its share link |
| ComposePage.RenderConsistent | src/pages/index.tsx:86-92 | a valid state renders, and the QR payload, link target and link text are the same share link of the stored text |
| ComposePage.AcceptedEditSyncsAddress | src/pages/index.tsx:73-92 | after an accepted edit the address bar holds exactly the link the page renders |
| ComposePage.LastAccepted | src/pages/index.tsx:73-80 | the result is an edit that parses and no later edit parses; when there is none, no edit parsed |
| ComposePage.RunKeepsLastGood | src/pages/index.tsx:73-80 | after any edits the stored text is the last edit that parsed and the address bar its share link, or the state is unchanged if none parsed |
| ComposePage.RunPreservesValid | src/pages/index.tsx:75-92 | from a valid state every sequence of edits keeps the stored text parseable, so rendering never throws |
| ComposePage.Load | src/pages/index.tsx:40-62 | the compose page never auto-sends a request, and its editor starts at `JSON.stringify({})` with the loaded URL in the address bar |
| ComposePage.StartIgnoresSearch | src/pages/index.tsx:40-44 | the editor's starting text and the absence of a request do not depend on the search string, so following "Create your own link" does not prefill the editor |
| ComposePage.LoadedEditorValid | src/pages/index.tsx:42-44 | if `JSON.stringify({})` parses back, every state reached from loading is valid |

## Left out

- The query-string library's `parse` internals (splitting, bracket nesting, array indices, `ignoreQueryPrefix`, parameter limit, how decoded keys become property names): abstract `split` and `assemble`, since that library is not part of this model.
- `qs.stringify`, `JSON.parse` and `JSON.stringify`: abstract functions; no round trip between the query encoding and decoding is stated, since the code does not promise one (unescaped `&`, `=` or `[` in values break it).
- QueryHook.DecodeScalar: `parseInt` is modelled on unbounded integers, so the floating-point rounding above 2^53 and the negative zero of `-0` are not modelled (`-0` has the same truthiness as `0`).
- Strings are sequences of Unicode scalar values, not UTF-16 code units; lone surrogates cannot be written, so the `URIError` that `encodeURIComponent` raises on them is not modelled.
- JSON numbers are integers; floating-point values and `NaN` are not modelled.
- Browser.Provider: a non-boolean `isMetaMask` is folded into its truthiness.
- Browser.Href: URLs with credentials, URLs without a host, and URLs whose query or fragment is present but empty (where `location.href` keeps a bare `?` or `#` that `search` and `hash` report as `""`) are not modelled.
- Browser effects: the promise returned by `window.ethereum.request`, `console` logging, the assignment to `window.location.href` (modelled as the redirect target it sets), `history.pushState` (modelled as the address-bar field), the 500 ms debounce (a run is the sequence of edits that fire), the Monaco theme, QR drawing and device detection (`isMobile` is an input).
- The server-side render (`typeof window === 'undefined'`, src/pages/index.tsx lines 64-66): the pages' effects only run in the browser, where these `typeof window` conditions hold.
- Dialog buttons (refresh, download) and the dark-mode toggle: user interface with nothing to state.
- The examples menu (`src/components/ExamplesDropdown.tsx`) only renders a list and forwards the clicked item; how its items are built is not part of these pages.
- `src/themes/default.tsx`, `src/gatsby-theme-material-ui-top-layout/components/top-layout.tsx` and `gatsby-config.js`: styling and site configuration.

=== FILE: ascii.dfy ===
/** Character classes used by the regular expressions and the percent-decoder. */
module Ascii {

  /** `[0-9]`, which is also what `\d` matches (with or without the `u` flag). */
  predicate IsDigit(c: char) {
    '0' <= c <= '9'
  }

  /** `\w` without the `i` flag: `[A-Za-z0-9_]`. */
  predicate IsWordChar(c: char) {
    IsDigit(c) || 'a' <= c <= 'z' || 'A' <= c <= 'Z' || c == '_'
  }

  predicate IsHexDigit(c: char) {
    IsDigit(c) || 'a' <= c <= 'f' || 'A' <= c <= 'F'
  }

  function DigitValue(c: char): (v: nat)
    requires IsDigit(c)
    ensures v < 10
  {
    c as int - '0' as int
  }

  function HexDigitValue(c: char): (v: nat)
    requires IsHexDigit(c)
    ensures v < 16
    ensures IsDigit(c) ==> v == DigitValue(c)
  {
    if IsDigit(c) then DigitValue(c)
    else if 'a' <= c <= 'f' then c as int - 'a' as int + 10
    else c as int - 'A' as int + 10
  }

  /** The decimal digit for `d`; inverse of `DigitValue`. */
  function DigitChar(d: nat): (c: char)
    requires d < 10
    ensures IsDigit(c) && DigitValue(c) == d
  {
    ('0' as int + d) as char
  }

  /** The upper-case hexadecimal digit for `d` (the case `encodeURIComponent`
      emits); inverse of `HexDigitValue`. */
  function HexChar(d: nat): (c: char)
    requires d < 16
    ensures IsHexDigit(c) && HexDigitValue(c) == d
    ensures c != '%'
  {
    if d < 10 then DigitChar(d) else ('A' as int + d - 10) as char
  }
}

=== FILE: browser.dfy ===
/** What the pages read from the browser: the current location and the
    environment (device class and the injected wallet provider). The pages'
    effects run only in the browser, so their `typeof window` conditions hold there. */
module Browser {
  import opened Wrappers

  /** `window.location` of a URL with a host and no credentials. `protocol`
      includes its trailing `:`, `search` its leading `?` (or is empty), and
      `hash` its leading `#` (or is empty). */
  datatype Location = Location(protocol: string, host: string, pathname: string, search: string, hash: string)

  /** `location.href` for such a URL: the serialisation of the WHATWG URL
      standard without credentials. */
  function Href(loc: Location): string {
    loc.protocol + "//" + loc.host + loc.pathname + loc.search + loc.hash
  }

  /** `window.ethereum`: present or absent; an absent or falsy `isMetaMask`
      reads as `false`. */
  datatype Provider = Provider(isMetaMask: bool)

  /** The environment the page's effects observe. */
  datatype Env = Env(isMobile: bool, ethereum: Option<Provider>)
}

=== FILE: compose_page.dfy ===
/** The compose page: a JSON editor whose accepted text is mirrored into the
    address bar, a QR code and a shareable link. `JSON.parse`,
    `JSON.stringify` and the query-string serialiser are abstract. */
module ComposePage {
  import opened Wrappers
  import opened JsonValues
  import opened Browser
  import opened Guards
  import QueryHook

  /** The library functions the page calls. `parseJson` returns `None` where
      `JSON.parse` throws; `stringifyJson` is `JSON.stringify(_, null, 4)`;
      `stringifyQuery` is `qs.stringify(_, { encode: false })`. */
  datatype Codecs = Codecs(parseJson: string -> Option<Json>,
                           stringifyJson: Json -> string,
                           stringifyQuery: Json -> string)

  /** `getUrlWithoutSearch()`: protocol, `//`, host and path. */
  function BaseUrl(loc: Location): (base: string)
    ensures Href(loc) == base + loc.search + loc.hash
  {
    loc.protocol + "//" + loc.host + loc.pathname
  }

  /** The base never depends on the search string or the fragment, so pushing
      a new search string into the address bar leaves it as it was. */
  lemma BaseIgnoresSearch(loc: Location, search: string, hash: string)
    ensures BaseUrl(loc.(search := search, hash := hash)) == BaseUrl(loc)
    ensures |BaseUrl(loc)| + |loc.search| + |loc.hash| == |Href(loc)|
  {
  }

  /** The page state: the stored editor text and the address bar. At load
      `address` is the browser's serialised `location.href`; after an
      accepted edit it is the raw URL string handed to `history.pushState`,
      before the browser percent-encodes the spaces and quotes it may hold. */
  datatype Editor = Editor(stored: string, address: string)

  /** The invariant the render relies on: the stored text parses as JSON. */
  predicate Valid(cs: Codecs, e: Editor) {
    cs.parseJson(e.stored).Some?
  }

  /** `base + '?' + qs.stringify(JSON.parse(text), { encode: false })`, or
      `None` where `JSON.parse` throws. */
  function ShareLink(cs: Codecs, base: string, text: string): Option<string> {
    match cs.parseJson(text)
    case None => None
    case Some(v) => Some(base + "?" + cs.stringifyQuery(v))
  }

  /** One debounced edit. Text that does not parse is logged and dropped;
      text that parses becomes the stored text, and the address bar gets the
      share link built from it. */
  function Edit(cs: Codecs, base: string, e: Editor, text: string): (e': Editor)
    ensures cs.parseJson(text).None? ==> e' == e
    ensures cs.parseJson(text).Some? ==> e'.stored == text && Valid(cs, e')
    ensures cs.parseJson(text).Some? ==> Some(e'.address) == ShareLink(cs, base, e'.stored)
  {
    match cs.parseJson(text)
    case None => e
    case Some(v) => Editor(text, base + "?" + cs.stringifyQuery(v))
  }

  /** The three strings the page renders from the stored text. */
  datatype View = View(qrValue: string, href: string, linkText: string)

  /** Rendering: the QR payload, the link target and the link text each parse
      the stored text and serialise it. `None`: `JSON.parse` threw. */
  function Render(cs: Codecs, base: string, e: Editor): Option<View> {
    match cs.parseJson(e.stored)
    case None => None
    case Some(v) =>
      Some(View(base + "?" + cs.stringifyQuery(v),
                base + "?" + cs.stringifyQuery(v),
                base + "?" + cs.stringifyQuery(v)))
  }

  /** A valid state renders, and the QR payload, the link target and the link
      text are the one share link of the stored text. */
  lemma RenderConsistent(cs: Codecs, base: string, e: Editor)
    requires Valid(cs, e)
    ensures Render(cs, base, e).Some?
    ensures var view := Render(cs, base, e).value;
      && Some(view.qrValue) == ShareLink(cs, base, e.stored)
      && view.href == view.qrValue
      && view.linkText == view.qrValue
  {
  }

  /** After an accepted edit the address bar shows exactly the link the page
      renders. */
  lemma AcceptedEditSyncsAddress(cs: Codecs, base: string, e: Editor, text: string)
    requires cs.parseJson(text).Some?
    ensures Render(cs, base, Edit(cs, base, e, text)).Some?
    ensures Render(cs, base, Edit(cs, base, e, text)).value.href == Edit(cs, base, e, text).address
  {
  }

  /** The state after a sequence of debounced edits. */
  function Run(cs: Codecs, base: string, e: Editor, edits: seq<string>): Editor
    decreases |edits|
  {
    if |edits| == 0 then e else Edit(cs, base, Run(cs, base, e, edits[..|edits| - 1]), edits[|edits| - 1])
  }

  /** The last edit whose text parses, if any. */
  function LastAccepted(cs: Codecs, edits: seq<string>): (r: Option<string>)
    ensures r.Some? ==> r.value in edits && cs.parseJson(r.value).Some?
    ensures r.None? ==> forall i :: 0 <= i < |edits| ==> cs.parseJson(edits[i]).None?
    ensures r.Some? ==>
              exists i :: (0 <= i < |edits| && edits[i] == r.value &&
                           forall j :: i < j < |edits| ==> cs.parseJson(edits[j]).None?)
    decreases |edits|
  {
    if |edits| == 0 then None
    else if cs.parseJson(edits[|edits| - 1]).Some? then Some(edits[|edits| - 1])
    else LastAccepted(cs, edits[..|edits| - 1])
  }

  /** Last known good: after any sequence of edits the stored text is the last
      edit that parsed, or the initial text when none did; the address bar is
      that edit's share link, or the initial address. */
  lemma {:induction false} RunKeepsLastGood(cs: Codecs, base: string, e: Editor, edits: seq<string>)
    ensures var final := Run(cs, base, e, edits);
      match LastAccepted(cs, edits)
      case None => final == e
      case Some(t) => final.stored == t && Some(final.address) == ShareLink(cs, base, t)
    decreases |edits|
  {
    if |edits| > 0 {
      RunKeepsLastGood(cs, base, e, edits[..|edits| - 1]);
    }
  }

  /** The stored text parses in every reachable state, so the parses during
      rendering never throw. */
  lemma RunPreservesValid(cs: Codecs, base: string, e: Editor, edits: seq<string>)
    requires Valid(cs, e)
    ensures Valid(cs, Run(cs, base, e, edits))
    ensures Render(cs, base, Run(cs, base, e, edits)).Some?
  {
    RunKeepsLastGood(cs, base, e, edits);
  }

  /** What loading the compose page does. */
  datatype Outcome = Outcome(showInstall: bool, request: Request, editor: Editor)

  /** Loading the compose page at `loc`. The hook is called without a search
      string, so the query is `{}` whatever the address bar holds. */
  function Load(env: Env, cs: Codecs, loc: Location,
                split: string -> seq<QueryHook.RawPair>,
                assemble: (seq<(Json, Json)>, int) -> Json): (o: Outcome)
    ensures o.showInstall == ShowInstallDialog(env)
    ensures o.request == NoRequest
    ensures o.editor == Editor(cs.stringifyJson(JObject(map[])), Href(loc))
  {
    var query := QueryHook.ParseQuery(None, None, split, assemble).value;
    Outcome(ShowInstallDialog(env), AutoRequest(env, query), Editor(cs.stringifyJson(query), Href(loc)))
  }

  /** The editor's starting text does not depend on the search string, so
      following a deep link's "Create your own link" (`"/" + search`) opens the
      same editor text as a bare visit. */
  lemma StartIgnoresSearch(env: Env, cs: Codecs, loc: Location, search: string,
                           split: string -> seq<QueryHook.RawPair>,
                           assemble: (seq<(Json, Json)>, int) -> Json)
    ensures Load(env, cs, loc.(search := search), split, assemble).editor.stored ==
            Load(env, cs, loc, split, assemble).editor.stored
    ensures Load(env, cs, loc.(search := search), split, assemble).request == NoRequest
  {
  }

  /** The initial editor text is `JSON.stringify` output, so when that parses
      back, every state the page reaches is valid. */
  lemma LoadedEditorValid(env: Env, cs: Codecs, loc: Location,
                          split: string -> seq<QueryHook.RawPair>,
                          assemble: (seq<(Json, Json)>, int) -> Json,
                          edits: seq<string>)
    requires cs.parseJson(cs.stringifyJson(JObject(map[]))).Some?
    ensures Valid(cs, Run(cs, BaseUrl(loc), Load(env, cs, loc, split, assemble).editor, edits))
  {
    RunPreservesValid(cs, BaseUrl(loc), Load(env, cs, loc, split, assemble).editor, edits);
  }
}

=== FILE: decimal.dfy ===
/** Decimal numerals: the value `parseInt(s, 10)` gives a run of digits, and the
    shortest numeral of a number, used as an independent reference for the
    integer branch of the query decoder. */
module Decimal {
  import opened Ascii

  predicate AllDigits(s: string) {
    forall i :: 0 <= i < |s| ==> IsDigit(s[i])
  }

  /** The base-10 value of a run of digits; leading zeros are allowed. */
  function DigitsValue(s: string): nat
    requires AllDigits(s)
    decreases |s|
  {
    if |s| == 0 then 0 else DigitsValue(s[..|s| - 1]) * 10 + DigitValue(s[|s| - 1])
  }

  /** The shortest decimal numeral of `n`. */
  function ShowNat(n: nat): (s: string)
    ensures |s| > 0 && AllDigits(s)
    ensures s[0] == '0' ==> n == 0
  {
    if n < 10 then [DigitChar(n)] else ShowNat(n / 10) + [DigitChar(n % 10)]
  }

  /** The decimal numeral of an integer, with a `-` for negative values. */
  function ShowInt(n: int): (s: string)
    ensures |s| > 0
  {
    if n < 0 then "-" + ShowNat(-n) else ShowNat(n)
  }

  function Zeros(k: nat): (s: string)
    ensures |s| == k && AllDigits(s)
    ensures forall i :: 0 <= i < k ==> s[i] == '0'
  {
    seq(k, _ => '0')
  }

  /** Reading back the numeral of `n` gives `n`. */
  lemma {:induction false} ShowNatValue(n: nat)
    ensures DigitsValue(ShowNat(n)) == n
  {
    if n >= 10 {
      var s := ShowNat(n);
      assert s[..|s| - 1] == ShowNat(n / 10);
      ShowNatValue(n / 10);
    }
  }

  /** A leading zero does not change the value of a numeral. */
  lemma {:induction false} LeadingZeroValue(s: string)
    requires AllDigits(s)
    ensures AllDigits("0" + s) && DigitsValue("0" + s) == DigitsValue(s)
    decreases |s|
  {
    var z := "0" + s;
    if |s| > 0 {
      assert z[..|z| - 1] == "0" + s[..|s| - 1];
      LeadingZeroValue(s[..|s| - 1]);
    }
  }

  /** Any number of leading zeros does not change the value of a numeral. */
  lemma {:induction false} LeadingZerosValue(k: nat, s: string)
    requires AllDigits(s)
    ensures AllDigits(Zeros(k) + s) && DigitsValue(Zeros(k) + s) == DigitsValue(s)
    decreases k
  {
    if k == 0 {
      assert Zeros(k) + s == s;
    } else {
      LeadingZerosValue(k - 1, s);
      assert Zeros(k) + s == "0" + (Zeros(k - 1) + s);
      LeadingZeroValue(Zeros(k - 1) + s);
    }
  }

  /** A numeral has value zero exactly when every digit is `0`. */
  lemma {:induction false} ZeroValueIffAllZeros(s: string)
    requires AllDigits(s)
    ensures DigitsValue(s) == 0 <==> forall i :: 0 <= i < |s| ==> s[i] == '0'
    decreases |s|
  {
    if |s| > 0 {
      var p := s[..|s| - 1];
      ZeroValueIffAllZeros(p);
      assert forall i :: 0 <= i < |p| ==> p[i] == s[i];
    }
  }
}

=== FILE: deep_page.dfy ===
/** The auto-execute page: on load it decides on the install dialog, the
    redirect into the wallet's mobile app, and sending the request decoded
    from its own query string; it also links back to the compose page. */
module DeepPage {
  import opened Wrappers
  import opened Ascii
  import opened JsonValues
  import opened Browser
  import opened Guards
  import QueryHook

  const AppLinkPrefix: string := "https://metamask.app.link/dapp/"

  /** The length of the longest run of word characters at the start of `s`. */
  function WordRun(s: string): (n: nat)
    ensures n <= |s|
    ensures forall i :: 0 <= i < n ==> IsWordChar(s[i])
    ensures n < |s| ==> !IsWordChar(s[n])
  {
    if |s| > 0 && IsWordChar(s[0]) then 1 + WordRun(s[1..]) else 0
  }

  /** A prefix the pattern `(^\w+:|^)\/\/` removes: `//`, or word characters
      followed by `://`. */
  predicate IsSchemePrefix(p: string) {
    p == "//" ||
    (|p| >= 4 && p[|p| - 3..] == "://" && forall i :: 0 <= i < |p| - 3 ==> IsWordChar(p[i]))
  }

  /** `url.replace(/(^\w+:|^)\/\//, '')`: both alternatives are anchored and
      the pattern has no `g` flag, so at most one prefix, at position 0, goes. */
  function StripScheme(url: string): (r: string)
    ensures |r| <= |url| && r == url[|url| - |r|..]
    ensures r == url || IsSchemePrefix(url[..|url| - |r|])
  {
    var n := WordRun(url);
    if n > 0 && n + 3 <= |url| && url[n..n + 3] == "://" then
      assert url[..n + 3][n + 3 - 3..] == "://";
      url[n + 3..]
    else if |url| >= 2 && url[0] == '/' && url[1] == '/' then
      assert url[..2] == "//";
      url[2..]
    else
      url
  }

  /** Word characters followed by `://` lose exactly that prefix, whatever
      follows, even another scheme. */
  lemma {:induction false} StripWordScheme(w: string, rest: string)
    requires |w| > 0 && forall i :: 0 <= i < |w| ==> IsWordChar(w[i])
    ensures StripScheme(w + "://" + rest) == rest
  {
    var url := w + "://" + rest;
    assert url == w + ("://" + rest);
    WordRunOfWord(w, "://" + rest);
    var n := |w|;
    assert url[n] == ':' && url[n + 1] == '/' && url[n + 2] == '/';
    assert url[n + 3..] == rest;
  }

  lemma {:induction false} WordRunOfWord(w: string, tail: string)
    requires forall i :: 0 <= i < |w| ==> IsWordChar(w[i])
    requires |tail| > 0 && !IsWordChar(tail[0])
    ensures WordRun(w + tail) == |w|
    decreases |w|
  {
    if |w| > 0 {
      assert (w + tail)[1..] == w[1..] + tail;
      WordRunOfWord(w[1..], tail);
    } else {
      assert w + tail == tail;
    }
  }

  /** A protocol-relative URL loses its leading `//` and nothing else. */
  lemma StripSlashes(rest: string)
    ensures StripScheme("//" + rest) == rest
  {
    var url := "//" + rest;
    assert WordRun(url) == 0 by { assert !IsWordChar(url[0]); }
    assert url[0] == '/' && url[1] == '/' && url[2..] == rest;
  }

  /** A URL with no removable prefix at position 0 is returned unchanged. */
  lemma StripOtherUnchanged(url: string)
    requires forall k :: 0 <= k <= |url| ==> !IsSchemePrefix(url[..k])
    ensures StripScheme(url) == url
  {
    var k := |url| - |StripScheme(url)|;
    assert !IsSchemePrefix(url[..k]);
  }

  /** Worked example: a plain `https://` URL. */
  lemma StripHttpsExample()
    ensures StripScheme("https://a.b/x") == "a.b/x"
  {
    assert "https" + "://" + "a.b/x" == "https://a.b/x";
    assert forall i :: 0 <= i < 5 ==> IsWordChar("https"[i]);
    StripWordScheme("https", "a.b/x");
  }

  /** Worked example: only the first of two schemes goes. */
  lemma StripOnlyFirstScheme()
    ensures StripScheme("https://http://x") == "http://x"
  {
    assert "https" + "://" + "http://x" == "https://http://x";
    assert forall i :: 0 <= i < 5 ==> IsWordChar("https"[i]);
    StripWordScheme("https", "http://x");
  }

  /** Worked example: a scheme with a `+` is not removed. */
  lemma StripKeepsPlusScheme()
    ensures StripScheme("git+ssh://host") == "git+ssh://host"
  {
    var g := "git+ssh://host";
    assert forall i :: 0 <= i < 3 ==> IsWordChar("git"[i]);
    assert g == "git" + "+ssh://host";
    WordRunOfWord("git", "+ssh://host");
    assert g[3..6] != "://" by { assert g[3..6][0] == '+'; }
    assert g[0] == 'g';
  }

  /** Worked example: `//` later in the string is not removed. */
  lemma StripKeepsLaterSlashes()
    ensures StripScheme("a.b//x") == "a.b//x"
  {
    var e := "a.b//x";
    assert e == "a" + ".b//x";
    WordRunOfWord("a", ".b//x");
    assert e[1] == '.';
  }

  /** `https://metamask.app.link/dapp/${urlWithoutProtocol}`. */
  function RedirectUrl(href: string): (r: string)
    ensures |r| == |AppLinkPrefix| + |StripScheme(href)|
    ensures r[..|AppLinkPrefix|] == AppLinkPrefix
    ensures r[|AppLinkPrefix|..] == StripScheme(href)
  {
    AppLinkPrefix + StripScheme(href)
  }

  /** For a location whose protocol is a scheme such as `https:`, the redirect
      target is the app-link prefix followed by everything after `//`. */
  lemma RedirectFromLocation(loc: Location)
    requires |loc.protocol| >= 2 && loc.protocol[|loc.protocol| - 1] == ':'
    requires forall i :: 0 <= i < |loc.protocol| - 1 ==> IsWordChar(loc.protocol[i])
    ensures RedirectUrl(Href(loc)) == AppLinkPrefix + (loc.host + loc.pathname + loc.search + loc.hash)
  {
    var p := loc.protocol;
    var w := p[..|p| - 1];
    var rest := loc.host + loc.pathname + loc.search + loc.hash;
    assert Href(loc) == w + "://" + rest by {
      HrefAfterScheme(loc);
    }
    assert forall i :: 0 <= i < |w| ==> IsWordChar(w[i]) by {
      forall i | 0 <= i < |w| ensures IsWordChar(w[i]) { assert w[i] == p[i]; }
    }
    StripWordScheme(w, rest);
  }

  lemma HrefAfterScheme(loc: Location)
    requires |loc.protocol| >= 1 && loc.protocol[|loc.protocol| - 1] == ':'
    ensures Href(loc) == loc.protocol[..|loc.protocol| - 1] + "://" +
      (loc.host + loc.pathname + loc.search + loc.hash)
  {
    var p := loc.protocol;
    assert p == p[..|p| - 1] + ":";
  }

  /** The route (the `to` value) of "Create your own link": the compose
      page's route with this page's search string, verbatim. A build with a
      path prefix serves that route under the prefix. */
  function CreateOwnLink(search: string): (r: string)
    ensures |r| == |search| + 1 && r[0] == '/' && r[1..] == search
  {
    "/" + search
  }

  /** What loading the page does. `Crashed`: the decoder threw while the hook
      ran during rendering, so no effect runs. */
  datatype Outcome =
    | Crashed
    | Loaded(showInstall: bool, redirect: Option<string>, request: Request, ownLink: string)

  /** Loading the auto-execute page at `loc`, with the parser given as
      `split` and `assemble`. */
  function Load(env: Env, loc: Location,
                split: string -> seq<QueryHook.RawPair>,
                assemble: (seq<(Json, Json)>, int) -> Json): (o: Outcome)
    ensures o.Crashed? <==> QueryHook.ParseQuery(Some(loc.search), None, split, assemble).None?
    ensures o.Loaded? ==> o.showInstall == ShowInstallDialog(env)
    ensures o.Loaded? ==> (o.redirect.Some? <==> env.isMobile && env.ethereum.None?)
    ensures o.Loaded? && o.redirect.Some? ==> o.redirect.value == RedirectUrl(Href(loc))
    ensures o.Loaded? ==>
      o.request == AutoRequest(env, QueryHook.ParseQuery(Some(loc.search), None, split, assemble).value)
    ensures o.Loaded? && o.redirect.Some? ==> o.request == NoRequest
    ensures o.Loaded? ==> o.ownLink == CreateOwnLink(loc.search)
  {
    match QueryHook.ParseQuery(Some(loc.search), None, split, assemble)
    case None => Crashed
    case Some(query) =>
      Loaded(ShowInstallDialog(env),
             if RedirectsToApp(env) then Some(RedirectUrl(Href(loc))) else None,
             AutoRequest(env, query),
             CreateOwnLink(loc.search))
  }

  /** When the query's `method` came from the decoder, the request is sent
      exactly when a provider is present and the raw text is not empty, not
      `false`, and not a numeral made only of zeros: `method=0` sends nothing. */
  lemma DecodedMethodRequest(env: Env, query: Json, raw: string)
    requires query.JObject? && "method" in query.fields
    requires !QueryHook.DecodeScalar(raw).UriError?
    requires query.fields["method"] == QueryHook.ScalarJson(QueryHook.DecodeScalar(raw))
    ensures AutoRequest(env, query).Send? <==>
      env.ethereum.Some? && raw != "" && raw != "false" &&
      !(QueryHook.SignedDigits(raw) &&
        forall i :: 0 <= i < |QueryHook.Unsigned(raw)| ==> QueryHook.Unsigned(raw)[i] == '0')
  {
    QueryHook.DecodedTruthiness(raw);
  }
}

=== FILE: guards.dfy ===
/** The decisions both pages take on load: whether to show the install dialog,
    whether to send the decoded request to the wallet, and (on the
    auto-execute page) whether to redirect to the wallet's mobile app. */
module Guards {
  import opened Wrappers
  import opened JsonValues
  import opened Browser

  /** `!(window.ethereum && window.ethereum.isMetaMask)`. */
  function ShowInstallDialog(env: Env): (show: bool)
    ensures !show <==> env.ethereum.Some? && env.ethereum.value.isMetaMask
  {
    match env.ethereum
    case None => true
    case Some(p) => !p.isMetaMask
  }

  /** `isMobile && !window.ethereum`. */
  function RedirectsToApp(env: Env): (redirect: bool)
    ensures redirect <==> env.isMobile && env.ethereum.None?
  {
    env.isMobile && !env.ethereum.Some?
  }

  /** What the auto-request effect hands to `window.ethereum.request`. */
  datatype Request = NoRequest | Send(args: Json)

  /** `if (queryParams && queryParams.method) window.ethereum?.request(queryParams)`:
      the decoded object itself is sent, when its `method` is truthy and a
      provider is there to receive it. */
  function AutoRequest(env: Env, query: Json): (r: Request)
    ensures r.Send? <==> env.ethereum.Some? && Truthy(query) && MemberTruthy(query, "method")
    ensures r.Send? ==> r.args == query
  {
    if Truthy(query) && MemberTruthy(query, "method") then
      match env.ethereum
      case None => NoRequest
      case Some(_) => Send(query)
    else NoRequest
  }

  /** A device that is redirected to the app has no provider, so it sends no
      request and sees the install dialog. */
  lemma RedirectExcludesRequest(env: Env, query: Json)
    requires RedirectsToApp(env)
    ensures AutoRequest(env, query) == NoRequest
    ensures ShowInstallDialog(env)
  {
  }
}

=== FILE: json_values.dfy ===
/** The JavaScript values the pages pass around: the object the query-string
    parser builds, the value `JSON.parse` returns, and the request handed to
    the wallet. Numbers are integers here. */
module JsonValues {
  import opened Wrappers

  datatype Json =
    | JNull
    | JBool(b: bool)
    | JNumber(n: int)
    | JString(s: string)
    | JArray(items: seq<Json>)
    | JObject(fields: map<string, Json>)

  /** JavaScript truthiness: `null`, `false`, `0` and `""` are falsy, every
      array and object is truthy. */
  predicate Truthy(v: Json) {
    match v
    case JNull => false
    case JBool(b) => b
    case JNumber(n) => n != 0
    case JString(s) => s != ""
    case JArray(_) => true
    case JObject(_) => true
  }

  /** Property access `v.key`; `None` is `undefined`. Only objects have own
      properties a query can set. */
  function Member(v: Json, key: string): (r: Option<Json>)
    ensures r.Some? <==> v.JObject? && key in v.fields
    ensures r.Some? ==> r.value == v.fields[key]
  {
    if v.JObject? && key in v.fields then Some(v.fields[key]) else None
  }

  /** `v.key` is truthy; `undefined` is falsy. */
  predicate MemberTruthy(v: Json, key: string) {
    match Member(v, key)
    case None => false
    case Some(m) => Truthy(m)
  }
}

=== FILE: query_hook.dfy ===
/** The `useQueryParams` hook: the scalar decoder it hands to the query-string
    parser, the nesting depth it passes, and how the parser uses the decoder.
    The parser itself (splitting on `&` and `=`, bracket nesting, array
    indices, prefix stripping) stays abstract: it is given as two functions,
    `split` and `assemble`. */
module QueryHook {
  import opened Wrappers
  import opened Ascii
  import opened Decimal
  import opened JsonValues
  import UriDecode
  import Utf8

  /** What the decoder returns for one string: a number, a boolean, a text, or
      the `URIError` that `decodeURIComponent` throws. */
  datatype Decoded = IntValue(n: int) | BoolValue(b: bool) | TextValue(t: string) | UriError

  /** The nesting depth handed to the parser: `depth || 100`. Both an omitted
      depth and `0` give 100; any other depth, negative ones included, is
      passed on. */
  function EffectiveDepth(depth: Option<int>): (d: int)
    ensures d != 0
    ensures depth.Some? && depth.value != 0 ==> d == depth.value
    ensures depth.None? || depth == Some(0) ==> d == 100
  {
    match depth
    case None => 100
    case Some(k) => if k != 0 then k else 100
  }

  // ---------------------------------------------------------------------------
  // The integer pattern `^([+-]?[0-9]\d*|0)$`.

  predicate HasSign(s: string) {
    |s| > 0 && (s[0] == '+' || s[0] == '-')
  }

  function Unsigned(s: string): string {
    if HasSign(s) then s[1..] else s
  }

  /** The first alternative, `[+-]?[0-9]\d*`. */
  predicate SignedDigits(s: string) {
    |Unsigned(s)| > 0 && AllDigits(Unsigned(s))
  }

  /** The whole pattern, both alternatives as written. */
  predicate MatchesIntegerPattern(s: string) {
    SignedDigits(s) || s == "0"
  }

  /** `parseInt(s, 10)` on a string the pattern accepted. */
  function ParseInteger(s: string): int
    requires SignedDigits(s)
  {
    var m: int := DigitsValue(Unsigned(s));
    if s[0] == '-' then -m else m
  }

  /** The decoder: integer, then `false`, then `true`, then percent-decoded text. */
  function DecodeScalar(s: string): (r: Decoded)
    ensures r.IntValue? <==> MatchesIntegerPattern(s)
    ensures r.BoolValue? <==> s == "false" || s == "true"
    ensures r.BoolValue? ==> (r.b <==> s == "true")
    ensures r.TextValue? ==> UriDecode.PercentDecode(s) == Some(r.t)
    ensures r.UriError? <==> UriDecode.PercentDecode(s).None? && !MatchesIntegerPattern(s) && s != "false" && s != "true"
  {
    if MatchesIntegerPattern(s) then IntValue(ParseInteger(s))
    else if s == "false" then BoolValue(false)
    else if s == "true" then BoolValue(true)
    else match UriDecode.PercentDecode(s)
      case None => UriError
      case Some(t) => TextValue(t)
  }

  // ---------------------------------------------------------------------------
  // Properties of the decoder.

  /** The strings read as integers are exactly: an optional sign followed by
      at least one ASCII digit, and nothing else. */
  lemma IntegerShape(s: string)
    ensures DecodeScalar(s).IntValue? <==>
      && |s| > 0
      && (IsDigit(s[0]) || ((s[0] == '+' || s[0] == '-') && |s| >= 2))
      && forall i :: 0 < i < |s| ==> IsDigit(s[i])
  {
    if |s| > 0 && (IsDigit(s[0]) || ((s[0] == '+' || s[0] == '-') && |s| >= 2))
       && forall i :: 0 < i < |s| ==> IsDigit(s[i])
    {
      var u := Unsigned(s);
      assert forall i :: 0 <= i < |u| ==> IsDigit(u[i]) by {
        if HasSign(s) {
          forall i | 0 <= i < |u| ensures IsDigit(u[i]) { assert u[i] == s[i + 1]; }
        }
      }
    }
    if DecodeScalar(s).IntValue? {
      var u := Unsigned(s);
      forall i | 0 < i < |s| ensures IsDigit(s[i]) {
        if HasSign(s) { assert s[i] == u[i - 1]; } else { assert s[i] == u[i]; }
      }
    }
  }

  /** Signed digit strings decode to their base-10 value, leading zeros allowed. */
  lemma SignedDigitsValue(sign: string, d: string)
    requires sign == "" || sign == "+" || sign == "-"
    requires |d| > 0 && AllDigits(d)
    ensures DecodeScalar(sign + d) == IntValue(if sign == "-" then -(DigitsValue(d) as int) else DigitsValue(d))
  {
    var s := sign + d;
    if sign == "" {
      assert s == d;
      assert !HasSign(s) by { assert IsDigit(s[0]); }
    } else {
      assert s[0] == sign[0] && s[1..] == d;
      assert HasSign(s);
    }
    assert Unsigned(s) == d;
    assert SignedDigits(s);
    assert DecodeScalar(s) == IntValue(ParseInteger(s));
  }

  /** The decimal numeral of any integer decodes back to that integer. */
  lemma IntegerRoundTrip(n: int)
    ensures DecodeScalar(ShowInt(n)) == IntValue(n)
  {
    if n < 0 {
      SignedDigitsValue("-", ShowNat(-n));
      ShowNatValue(-n);
    } else {
      SignedDigitsValue("", ShowNat(n));
      assert "" + ShowNat(n) == ShowNat(n);
      ShowNatValue(n);
    }
  }

  /** Leading zeros are accepted and ignored: `007` decodes to 7. */
  lemma LeadingZerosAccepted(k: nat, n: nat)
    ensures DecodeScalar(Zeros(k) + ShowNat(n)) == IntValue(n)
  {
    var d := Zeros(k) + ShowNat(n);
    LeadingZerosValue(k, ShowNat(n));
    ShowNatValue(n);
    SignedDigitsValue("", d);
    assert "" + d == d;
  }

  /** Only the exact, lower-case words are booleans. */
  lemma BooleansExact(s: string)
    ensures DecodeScalar(s) == BoolValue(true) <==> s == "true"
    ensures DecodeScalar(s) == BoolValue(false) <==> s == "false"
  {
  }

  /** A string that is neither an integer nor a boolean word and holds no `%`
      comes back unchanged as text: `+` is not turned into a space. */
  lemma PlainTextUnchanged(s: string)
    requires !MatchesIntegerPattern(s) && s != "false" && s != "true"
    requires '%' !in s
    ensures DecodeScalar(s) == TextValue(s)
  {
    UriDecode.NoPercentUnchanged(s);
  }

  /** A `%` not followed by two hexadecimal digits anywhere in the string
      makes the decoder fail. */
  lemma MalformedEscapeIsError(s: string, i: nat)
    requires i < |s| && s[i] == '%' && !UriDecode.StartsWithEscape(s[i..])
    ensures DecodeScalar(s) == UriError
  {
    UriDecode.MalformedEscapeFails(s, i);
    assert !IsDigit(s[i]);
    assert !MatchesIntegerPattern(s);
  }

  /** Escapes of a multi-byte lead followed by bytes that are not well-formed
      UTF-8 make the decoder fail: `%C3%28`, `%E0%80%80`, `%ED%A0%80` and
      `%F4%90%80%80` all throw. */
  lemma IllFormedUtf8IsError(o: seq<Utf8.Byte>, rest: string)
    requires 2 <= |o| <= 4 && Utf8.LeadingOnes(o[0]) == |o| && !Utf8.IsWellFormed(o)
    ensures DecodeScalar(UriDecode.EscapeBytes(o) + rest) == UriError
  {
    var s := UriDecode.EscapeBytes(o) + rest;
    UriDecode.IllFormedEscapesFail(o, rest);
    assert s[0] == '%';
    PercentIsText(s, 0);
  }

  /** A multi-byte lead whose continuation escapes stop early makes the
      decoder fail: `%E2%82`, `%C3x` and a lone `%E2` all throw. */
  lemma TruncatedUtf8IsError(o: seq<Utf8.Byte>, rest: string)
    requires 1 <= |o| && 2 <= Utf8.LeadingOnes(o[0]) <= 4 && |o| < Utf8.LeadingOnes(o[0])
    requires !UriDecode.StartsWithEscape(rest)
    ensures DecodeScalar(UriDecode.EscapeBytes(o) + rest) == UriError
  {
    var s := UriDecode.EscapeBytes(o) + rest;
    UriDecode.TruncatedFails(o, rest);
    assert s[0] == '%';
    PercentIsText(s, 0);
  }

  /** A string holding a `%` is neither an integer numeral nor a boolean word. */
  lemma PercentIsText(s: string, k: nat)
    requires k < |s| && s[k] == '%'
    ensures !MatchesIntegerPattern(s) && s != "false" && s != "true"
  {
    IntegerShape(s);
    assert !IsDigit(s[k]);
  }

  /** Any text that does not look like an integer or a boolean word survives
      `encodeURIComponent` followed by the decoder. */
  lemma TextRoundTrip(t: string)
    requires !MatchesIntegerPattern(t) && t != "false" && t != "true"
    ensures DecodeScalar(UriDecode.EncodeUriComponent(t)) == TextValue(t)
  {
    var e := UriDecode.EncodeUriComponent(t);
    UriDecode.EncodeDecodeRoundTrip(t);
    UriDecode.EncodeUnchangedOrEscaped(t);
    if e != t {
      var k :| 0 <= k < |e| && e[k] == '%';
      PercentIsText(e, k);
    }
  }

  /** Worked examples of the integer branch. */
  lemma IntegerExamples()
    ensures DecodeScalar("007") == IntValue(7)
    ensures DecodeScalar("+5") == IntValue(5)
    ensures DecodeScalar("-12") == IntValue(-12)
    ensures DecodeScalar("0") == IntValue(0)
  {
    LeadingZerosAccepted(2, 7);
    assert Zeros(2) + ShowNat(7) == "007";
    IntegerRoundTrip(0);
    assert ShowInt(0) == "0";
    IntegerRoundTrip(-12);
    assert ShowNat(12) == "12";
    assert ShowInt(-12) == "-12";
    SignedDigitsValue("+", "5");
    assert DigitsValue("5") == 5;
  }

  /** Strings that are never read as integers. */
  lemma NonIntegerExamples()
    ensures !DecodeScalar("").IntValue? && !DecodeScalar("+").IntValue?
    ensures !DecodeScalar("1.5").IntValue? && !DecodeScalar("1e3").IntValue?
    ensures !DecodeScalar(" 1").IntValue? && !DecodeScalar("0x10").IntValue?
  {
    IntegerShape("");
    IntegerShape("+");
    IntegerShape("1.5");
    IntegerShape("1e3");
    IntegerShape(" 1");
    IntegerShape("0x10");
    assert !IsDigit("0x10"[1]);
  }

  /** Worked examples of the boolean and text branches. */
  lemma TextExamples()
    ensures DecodeScalar("True") == TextValue("True")
    ensures DecodeScalar("FALSE") == TextValue("FALSE")
    ensures DecodeScalar("a+b") == TextValue("a+b")
    ensures DecodeScalar("%zz") == UriError
  {
    assert DecodeScalar("True") == TextValue("True") by {
      IntegerShape("True");
      PlainTextUnchanged("True");
    }
    assert DecodeScalar("FALSE") == TextValue("FALSE") by {
      IntegerShape("FALSE");
      PlainTextUnchanged("FALSE");
    }
    assert DecodeScalar("a+b") == TextValue("a+b") by {
      IntegerShape("a+b");
      PlainTextUnchanged("a+b");
    }
    MalformedEscapeIsError("%zz", 0);
  }

  // ---------------------------------------------------------------------------
  // How the parser uses the decoder.

  /** One `&`-separated part as the parser splits it: the raw key, and the raw
      value when the part has an `=`. */
  datatype RawPair = RawPair(key: string, value: Option<string>)

  /** The value a successful decoder call places in the parsed object. */
  function ScalarJson(d: Decoded): Json
    requires !d.UriError?
  {
    match d
    case IntValue(n) => JNumber(n)
    case BoolValue(b) => JBool(b)
    case TextValue(t) => JString(t)
  }

  /** The decoder succeeds on the key and, if present, on the value. */
  predicate PairDecodes(p: RawPair) {
    !DecodeScalar(p.key).UriError? && (p.value.None? || !DecodeScalar(p.value.value).UriError?)
  }

  /** The decoded key and value of a part; a part without `=` gets the value
      `""`, which is not passed through the decoder. */
  function DecodedPair(p: RawPair): (Json, Json)
    requires PairDecodes(p)
  {
    (ScalarJson(DecodeScalar(p.key)),
     match p.value
     case None => JString("")
     case Some(v) => ScalarJson(DecodeScalar(v)))
  }

  /** The decoder applied to every key and value, in order. The decoder is not
      wrapped in a `try`, so one failure aborts the whole parse. */
  function DecodePairs(pairs: seq<RawPair>): (r: Option<seq<(Json, Json)>>)
    ensures r.Some? <==> forall i :: 0 <= i < |pairs| ==> PairDecodes(pairs[i])
    ensures r.Some? ==> |r.value| == |pairs|
    ensures r.Some? ==> forall i :: 0 <= i < |pairs| ==> r.value[i] == DecodedPair(pairs[i])
  {
    if |pairs| == 0 then Some([])
    else if !PairDecodes(pairs[0]) then None
    else match DecodePairs(pairs[1..])
      case None => None
      case Some(rest) => Some([DecodedPair(pairs[0])] + rest)
  }

  /** `useQueryParams(search, depth)`: the object the hook returns, or `None`
      when the decoder throws. An absent or empty search string gives `{}`
      without calling the decoder. */
  function ParseQuery(search: Option<string>, depth: Option<int>,
                      split: string -> seq<RawPair>,
                      assemble: (seq<(Json, Json)>, int) -> Json): (r: Option<Json>)
    ensures search.None? || search == Some("") ==> r == Some(JObject(map[]))
    ensures search.Some? && search.value != "" ==>
      (r.Some? <==> forall i :: 0 <= i < |split(search.value)| ==> PairDecodes(split(search.value)[i]))
    ensures search.Some? && search.value != "" && r.Some? ==>
      r.value == assemble(DecodePairs(split(search.value)).value, EffectiveDepth(depth))
  {
    match search
    case None => Some(JObject(map[]))
    case Some(q) =>
      if q == "" then Some(JObject(map[]))
      else match DecodePairs(split(q))
        case None => None
        case Some(pairs) => Some(assemble(pairs, EffectiveDepth(depth)))
  }

  /** A decoded value is truthy unless it is the empty text, the word `false`,
      or a numeral made only of zeros (`0`, `-0`, `+000`). */
  lemma DecodedTruthiness(raw: string)
    requires !DecodeScalar(raw).UriError?
    ensures Truthy(ScalarJson(DecodeScalar(raw))) <==>
      raw != "" && raw != "false" &&
      !(SignedDigits(raw) && forall i :: 0 <= i < |Unsigned(raw)| ==> Unsigned(raw)[i] == '0')
  {
    UriDecode.EmptyOnlyFromEmpty(raw);
    if SignedDigits(raw) {
      ZeroValueIffAllZeros(Unsigned(raw));
    }
  }
}

=== FILE: uri_decode.dfy ===
/** `decodeURIComponent`: percent-decoding as section 2.1 of RFC 3986 defines
    escapes, with the escaped bytes read as UTF-8 (RFC 3629) and every failure
    reported as a `URIError`, here `None`. Nothing is kept escaped: the set of
    preserved characters of `decodeURIComponent` is empty. */
module UriDecode {
  import opened Wrappers
  import opened Ascii
  import Utf8

  /** `s` starts with a well-formed escape `%XY`. */
  predicate StartsWithEscape(s: string) {
    |s| >= 3 && s[0] == '%' && IsHexDigit(s[1]) && IsHexDigit(s[2])
  }

  /** The byte the leading escape of `s` stands for. */
  function EscapeByte(s: string): Utf8.Byte
    requires StartsWithEscape(s)
  {
    HexDigitValue(s[1]) * 16 + HexDigitValue(s[2])
  }

  /** Reads `count` consecutive escapes at the start of `s`. */
  function ReadEscapes(s: string, count: nat): (r: Option<seq<Utf8.Byte>>)
    ensures r.Some? ==> |r.value| == count && 3 * count <= |s|
    decreases count
  {
    if count == 0 then Some([])
    else if !StartsWithEscape(s) then None
    else match ReadEscapes(s[3..], count - 1)
      case None => None
      case Some(rest) => Some([EscapeByte(s)] + rest)
  }

  /** Decodes the character whose escapes start `s`, returning it with the
      number of input characters its escapes take up. A lead byte with one
      leading one bit or more than four, a missing or malformed continuation
      escape, and a sequence that is not well-formed UTF-8 are all failures. */
  function DecodeEscape(s: string): (r: Option<(char, nat)>)
    requires |s| > 0 && s[0] == '%'
    ensures r.Some? ==> 3 <= r.value.1 <= |s|
  {
    if !StartsWithEscape(s) then None
    else
      var b := EscapeByte(s);
      var n := Utf8.LeadingOnes(b);
      if n == 0 then Some((b as char, 3))
      else if n == 1 || n > 4 then None
      else match ReadEscapes(s[3..], n - 1)
        case None => None
        case Some(tail) =>
          var octets := [b] + tail;
          if Utf8.IsWellFormed(octets) then Some((Utf8.CodePoint(octets) as char, 3 * n))
          else None
  }

  /** `decodeURIComponent(s)`, with `None` for the `URIError` it throws. */
  function PercentDecode(s: string): (r: Option<string>)
    ensures r.Some? ==> |r.value| <= |s|
    decreases |s|
  {
    if |s| == 0 then Some("")
    else if s[0] != '%' then
      match PercentDecode(s[1..])
      case None => None
      case Some(t) => Some([s[0]] + t)
    else
      match DecodeEscape(s)
      case None => None
      case Some((c, w)) =>
        match PercentDecode(s[w..])
        case None => None
        case Some(t) => Some([c] + t)
  }

  // ---------------------------------------------------------------------------
  // The reference encoder: `encodeURIComponent`.

  /** The characters `encodeURIComponent` leaves alone. `%` and `+` are not among them. */
  predicate IsUnreserved(c: char) {
    'a' <= c <= 'z' || 'A' <= c <= 'Z' || IsDigit(c) || c in "-_.!~*'()"
  }

  /** `%XY` for every byte, with upper-case hexadecimal digits. */
  function EscapeBytes(bs: seq<Utf8.Byte>): (s: string)
    ensures |s| == 3 * |bs|
  {
    if |bs| == 0 then ""
    else ['%', HexChar(bs[0] / 16), HexChar(bs[0] % 16)] + EscapeBytes(bs[1..])
  }

  /** One character as `encodeURIComponent` writes it: unreserved characters
      as they are, any other as the escapes of its UTF-8 encoding. */
  function EncodeChar(c: char): string {
    if IsUnreserved(c) then [c] else EscapeBytes(Utf8.Encode(c as int))
  }

  /** `e` is a spelling of the bytes `bs` as escapes, one `%XY` per byte, with
      hexadecimal digits of either case in any mix (section 2.1 of RFC 3986
      makes them case-insensitive). */
  predicate SpellsBytes(e: string, bs: seq<Utf8.Byte>)
    decreases |bs|
  {
    if |bs| == 0 then e == []
    else
      |e| >= 3 && e[0] == '%' &&
      IsHexDigit(e[1]) && HexDigitValue(e[1]) == bs[0] / 16 &&
      IsHexDigit(e[2]) && HexDigitValue(e[2]) == bs[0] % 16 &&
      SpellsBytes(e[3..], bs[1..])
  }

  /** `encodeURIComponent(t)`. */
  function EncodeUriComponent(t: string): string
  {
    if |t| == 0 then "" else EncodeChar(t[0]) + EncodeUriComponent(t[1..])
  }

  // ---------------------------------------------------------------------------
  // Properties.

  /** Text without `%` decodes to itself; in particular `+` stays `+`. */
  lemma {:induction false} NoPercentUnchanged(s: string)
    requires '%' !in s
    ensures PercentDecode(s) == Some(s)
    decreases |s|
  {
    if |s| > 0 {
      NoPercentUnchanged(s[1..]);
      assert [s[0]] + s[1..] == s;
    }
  }

  /** Inside a run of escapes that was read successfully, every `%` starts a
      well-formed escape. */
  lemma {:induction false} ReadEscapesWellFormed(s: string, count: nat)
    requires ReadEscapes(s, count).Some?
    ensures forall j :: 0 <= j < 3 * count && s[j] == '%' ==> StartsWithEscape(s[j..])
    decreases count
  {
    if count > 0 {
      ReadEscapesWellFormed(s[3..], count - 1);
      forall j | 0 <= j < 3 * count && s[j] == '%'
        ensures StartsWithEscape(s[j..])
      {
        if j >= 3 {
          assert s[3..][j - 3..] == s[j..];
        }
      }
    }
  }

  /** Within the characters a decoded escape took up, every `%` starts a
      well-formed escape. */
  lemma DecodeEscapeWellFormed(s: string)
    requires |s| > 0 && s[0] == '%' && DecodeEscape(s).Some?
    ensures forall j :: 0 <= j < DecodeEscape(s).value.1 && s[j] == '%' ==> StartsWithEscape(s[j..])
  {
    var n := Utf8.LeadingOnes(EscapeByte(s));
    if n != 0 {
      ReadEscapesWellFormed(s[3..], n - 1);
      forall j | 3 <= j < 3 * n && s[j] == '%'
        ensures StartsWithEscape(s[j..])
      {
        assert s[3..][j - 3..] == s[j..];
      }
    }
  }

  /** A `%` anywhere in the input that is not followed by two hexadecimal
      digits makes the whole decoding fail; it is never passed through. */
  lemma {:induction false} MalformedEscapeFails(s: string, i: nat)
    requires i < |s| && s[i] == '%' && !StartsWithEscape(s[i..])
    ensures PercentDecode(s) == None
    decreases |s|
  {
    if s[0] != '%' {
      assert s[1..][i - 1..] == s[i..];
      MalformedEscapeFails(s[1..], i - 1);
    } else if i > 0 && DecodeEscape(s).Some? {
      var w := DecodeEscape(s).value.1;
      DecodeEscapeWellFormed(s);
      assert i >= w;
      assert s[w..][i - w..] == s[i..];
      MalformedEscapeFails(s[w..], i - w);
    }
  }

  /** A lead byte that cannot start a well-formed UTF-8 sequence (a
      continuation byte, the overlong leads C0 and C1, or F5 and above) makes
      the decoding fail. */
  lemma BadLeadByteFails(s: string)
    requires StartsWithEscape(s)
    requires 0x80 <= EscapeByte(s) <= 0xC1 || 0xF5 <= EscapeByte(s)
    ensures PercentDecode(s) == None
  {
    var b := EscapeByte(s);
    var n := Utf8.LeadingOnes(b);
    if 2 <= n <= 4 {
      match ReadEscapes(s[3..], n - 1)
      case None =>
      case Some(tail) => assert !Utf8.IsWellFormed([b] + tail);
    }
  }

  /** Decoding yields the empty string only from the empty string: a non-empty
      input gives a non-empty text or a failure. */
  lemma EmptyOnlyFromEmpty(s: string)
    ensures PercentDecode(s) == Some("") <==> s == ""
  {
  }

  lemma EscapeBytesHead(b: Utf8.Byte, rest: string)
    ensures StartsWithEscape(['%', HexChar(b / 16), HexChar(b % 16)] + rest)
    ensures EscapeByte(['%', HexChar(b / 16), HexChar(b % 16)] + rest) == b
  {
  }

  /** Escapes produced by `EscapeBytes` are read back as the same bytes,
      whatever follows them. */
  lemma {:induction false} ReadEscapeBytes(bs: seq<Utf8.Byte>, rest: string)
    ensures ReadEscapes(EscapeBytes(bs) + rest, |bs|) == Some(bs)
    decreases |bs|
  {
    if |bs| > 0 {
      var s := EscapeBytes(bs) + rest;
      var head := ['%', HexChar(bs[0] / 16), HexChar(bs[0] % 16)];
      assert s == head + (EscapeBytes(bs[1..]) + rest);
      EscapeBytesHead(bs[0], EscapeBytes(bs[1..]) + rest);
      assert s[3..] == EscapeBytes(bs[1..]) + rest;
      ReadEscapeBytes(bs[1..], rest);
      assert [bs[0]] + bs[1..] == bs;
    }
  }

  /** The escapes of one character's UTF-8 encoding decode to that character
      and take up exactly those escapes. */
  lemma DecodeEncodedChar(c: char, rest: string)
    ensures var e := EscapeBytes(Utf8.Encode(c as int));
      DecodeEscape(e + rest) == Some((c, |e|))
  {
    var o := Utf8.Encode(c as int);
    Utf8.EncodeWellFormed(c as int);
    if |o| == 1 {
      DecodeEncodedAscii(c, rest);
    } else {
      DecodeEncodedMultiByte(c, rest);
    }
  }

  lemma DecodeEncodedAscii(c: char, rest: string)
    requires c as int < 0x80
    ensures var e := EscapeBytes(Utf8.Encode(c as int));
      DecodeEscape(e + rest) == Some((c, |e|))
  {
    var o := Utf8.Encode(c as int);
    var s := EscapeBytes(o) + rest;
    assert s == ['%', HexChar(o[0] / 16), HexChar(o[0] % 16)] + rest;
    EscapeBytesHead(o[0], rest);
  }

  lemma DecodeEncodedMultiByte(c: char, rest: string)
    requires c as int >= 0x80
    ensures var e := EscapeBytes(Utf8.Encode(c as int));
      DecodeEscape(e + rest) == Some((c, |e|))
  {
    Utf8.EncodeWellFormed(c as int);
    DecodeEscapedSequence(Utf8.Encode(c as int), rest);
  }

  /** The escapes of a well-formed multi-byte sequence decode to its code point. */
  lemma DecodeEscapedSequence(o: seq<Utf8.Byte>, rest: string)
    requires Utf8.IsWellFormed(o) && |o| >= 2 && Utf8.LeadingOnes(o[0]) == |o|
    ensures DecodeEscape(EscapeBytes(o) + rest) == Some((Utf8.CodePoint(o) as char, 3 * |o|))
  {
    var s := EscapeBytes(o) + rest;
    var tail := EscapeBytes(o[1..]) + rest;
    assert StartsWithEscape(s) && EscapeByte(s) == o[0] && s[3..] == tail by {
      assert s == ['%', HexChar(o[0] / 16), HexChar(o[0] % 16)] + tail;
      EscapeBytesHead(o[0], tail);
    }
    assert ReadEscapes(s[3..], |o| - 1) == Some(o[1..]) by {
      ReadEscapeBytes(o[1..], rest);
    }
    assert [o[0]] + o[1..] == o;
  }

  /** A lead byte announcing two to four bytes, followed by well-formed
      escapes whose bytes together are not well-formed UTF-8 (a bad
      continuation byte, an overlong form, a surrogate, or a value above
      U+10FFFF), makes the decoding fail, whatever follows. */
  lemma IllFormedEscapesFail(o: seq<Utf8.Byte>, rest: string)
    requires 2 <= |o| <= 4 && Utf8.LeadingOnes(o[0]) == |o| && !Utf8.IsWellFormed(o)
    ensures PercentDecode(EscapeBytes(o) + rest) == None
  {
    var s := EscapeBytes(o) + rest;
    var tail := EscapeBytes(o[1..]) + rest;
    assert StartsWithEscape(s) && EscapeByte(s) == o[0] && s[3..] == tail by {
      assert s == ['%', HexChar(o[0] / 16), HexChar(o[0] % 16)] + tail;
      EscapeBytesHead(o[0], tail);
    }
    assert ReadEscapes(s[3..], |o| - 1) == Some(o[1..]) by {
      ReadEscapeBytes(o[1..], rest);
    }
    assert [o[0]] + o[1..] == o;
    assert DecodeEscape(s) == None;
  }

  /** Fewer escapes than asked for, followed by text that does not start
      with another escape, cannot be read. */
  lemma {:induction false} ReadShort(bs: seq<Utf8.Byte>, count: nat, rest: string)
    requires |bs| < count && !StartsWithEscape(rest)
    ensures ReadEscapes(EscapeBytes(bs) + rest, count) == None
    decreases |bs|
  {
    if |bs| == 0 {
      assert EscapeBytes(bs) + rest == rest;
    } else {
      var s := EscapeBytes(bs) + rest;
      var tail := EscapeBytes(bs[1..]) + rest;
      assert StartsWithEscape(s) && s[3..] == tail by {
        assert s == ['%', HexChar(bs[0] / 16), HexChar(bs[0] % 16)] + tail;
        EscapeBytesHead(bs[0], tail);
      }
      ReadShort(bs[1..], count - 1, rest);
    }
  }

  /** A lead byte announcing two to four bytes whose escapes stop early, at
      the end of the input or at text that is not an escape (`%E2%82`,
      `%C3x`, a trailing `%E2`), makes the decoding fail. */
  lemma TruncatedFails(o: seq<Utf8.Byte>, rest: string)
    requires 1 <= |o| && 2 <= Utf8.LeadingOnes(o[0]) <= 4 && |o| < Utf8.LeadingOnes(o[0])
    requires !StartsWithEscape(rest)
    ensures PercentDecode(EscapeBytes(o) + rest) == None
  {
    var s := EscapeBytes(o) + rest;
    var tail := EscapeBytes(o[1..]) + rest;
    assert StartsWithEscape(s) && EscapeByte(s) == o[0] && s[3..] == tail by {
      assert s == ['%', HexChar(o[0] / 16), HexChar(o[0] % 16)] + tail;
      EscapeBytesHead(o[0], tail);
    }
    ReadShort(o[1..], Utf8.LeadingOnes(o[0]) - 1, rest);
    assert DecodeEscape(s) == None;
  }

  /** Escapes spelling `bs` in any letter case are read back as `bs`,
      whatever follows them. */
  lemma {:induction false} ReadSpelled(e: string, bs: seq<Utf8.Byte>, rest: string)
    requires SpellsBytes(e, bs)
    ensures |e| == 3 * |bs|
    ensures ReadEscapes(e + rest, |bs|) == Some(bs)
    decreases |bs|
  {
    if |bs| > 0 {
      var s := e + rest;
      assert s[..3] == e[..3] && s[3..] == e[3..] + rest;
      assert StartsWithEscape(s) && EscapeByte(s) == bs[0];
      ReadSpelled(e[3..], bs[1..], rest);
      assert [bs[0]] + bs[1..] == bs;
    } else {
      assert e + rest == rest;
    }
  }

  /** Any spelling of a character's UTF-8 bytes as escapes, upper-case,
      lower-case or mixed (`%c3%a9`, `%C3%A9`, `%c3%A9`), decodes to that
      character, whatever follows. */
  lemma DecodeAnyCase(c: char, e: string, rest: string)
    requires SpellsBytes(e, Utf8.Encode(c as int))
    ensures PercentDecode(e + rest) ==
      match PercentDecode(rest) case None => None case Some(t) => Some([c] + t)
  {
    var o := Utf8.Encode(c as int);
    var s := e + rest;
    assert |e| == 3 * |o| && ReadEscapes(s, |o|) == Some(o) by {
      ReadSpelled(e, o, rest);
    }
    assert StartsWithEscape(s) && EscapeByte(s) == o[0] &&
           ReadEscapes(s[3..], |o| - 1) == Some(o[1..]);
    assert DecodeEscape(s) == Some((c, |e|)) by {
      Utf8.EncodeWellFormed(c as int);
      assert [o[0]] + o[1..] == o;
    }
    assert s[|e|..] == rest;
  }

  /** Worked examples: lower-case escapes decode like upper-case ones. */
  lemma LowerCaseExamples()
    ensures PercentDecode("%2f") == Some("/")
    ensures PercentDecode("%c3%a9") == Some("\U{E9}")
  {
    assert Utf8.Encode(0x2F) == [0x2F];
    assert SpellsBytes("%2f", [0x2F]) by {
      assert "%2f"[3..] == [];
    }
    assert "%2f" + "" == "%2f";
    assert PercentDecode("") == Some("");
    assert ['/'] + "" == "/";
    DecodeAnyCase('/', "%2f", "");
    assert Utf8.Encode(0xE9) == [0xC3, 0xA9];
    assert SpellsBytes("%c3%a9", [0xC3, 0xA9]) by {
      assert "%c3%a9"[3..] == "%a9" && "%a9"[3..] == [];
      var o: seq<Utf8.Byte> := [0xC3, 0xA9];
      assert o[1..] == [0xA9];
    }
    assert "%c3%a9" + "" == "%c3%a9";
    assert ['\U{E9}'] + "" == "\U{E9}";
    DecodeAnyCase('\U{E9}', "%c3%a9", "");
  }

  /** Text without `%` in front of the rest is copied through, so every fact
      about how a string decodes also holds after a plain prefix such as
      `/` or a space. */
  lemma {:induction false} PlainPrefix(p: string, s: string)
    requires '%' !in p
    ensures PercentDecode(p + s) ==
      match PercentDecode(s) case None => None case Some(t) => Some(p + t)
    decreases |p|
  {
    if |p| == 0 {
      assert p + s == s;
      assert forall t: string {:trigger p + t} :: p + t == t;
    } else {
      var u := p + s;
      assert u[0] == p[0] && p[0] != '%' by { assert p[0] in p; }
      assert u[1..] == p[1..] + s;
      assert '%' !in p[1..] by {
        forall i | 0 <= i < |p[1..]| ensures p[1..][i] != '%' {
          assert p[i + 1] in p;
        }
      }
      PlainPrefix(p[1..], s);
      assert forall t: string {:trigger p[1..] + t} :: [p[0]] + (p[1..] + t) == p + t;
    }
  }

  /** The characters `encodeURIComponent` writes for `c` decode back to `c`,
      whatever follows them. */
  lemma DecodeEncodedPiece(c: char, rest: string)
    ensures PercentDecode(EncodeChar(c) + rest) ==
      match PercentDecode(rest) case None => None case Some(t) => Some([c] + t)
  {
    var s := EncodeChar(c) + rest;
    if IsUnreserved(c) {
      assert s[1..] == rest;
    } else {
      var e := EscapeBytes(Utf8.Encode(c as int));
      DecodeEncodedChar(c, rest);
      assert s[|e|..] == rest;
    }
  }

  /** Round trip: `decodeURIComponent(encodeURIComponent(t)) == t` for every
      string of Unicode scalar values. */
  lemma {:induction false} EncodeDecodeRoundTrip(t: string)
    ensures PercentDecode(EncodeUriComponent(t)) == Some(t)
    decreases |t|
  {
    if |t| > 0 {
      EncodeDecodeRoundTrip(t[1..]);
      DecodeEncodedPiece(t[0], EncodeUriComponent(t[1..]));
      assert [t[0]] + t[1..] == t;
    }
  }

  /** `encodeURIComponent` either changes nothing or introduces a `%`. */
  lemma {:induction false} EncodeUnchangedOrEscaped(t: string)
    ensures EncodeUriComponent(t) == t || '%' in EncodeUriComponent(t)
    decreases |t|
  {
    if |t| > 0 {
      EncodeUnchangedOrEscaped(t[1..]);
      var s := EncodeUriComponent(t);
      var rest := EncodeUriComponent(t[1..]);
      if IsUnreserved(t[0]) {
        assert s == [t[0]] + rest;
        if rest == t[1..] {
          assert s == t;
        } else {
          var k :| 0 <= k < |rest| && rest[k] == '%';
          assert s[k + 1] == '%';
        }
      } else {
        assert s[0] == '%';
      }
    }
  }
}

=== FILE: utf8.dfy ===
/** UTF-8 as RFC 3629 defines it: the well-formed byte sequences of section 4,
    the code point a well-formed sequence denotes, and the encoder of section 3. */
module Utf8 {

  type Byte = b: int | 0 <= b < 0x100

  /** A Unicode scalar value: a code point that is not a surrogate. */
  predicate IsScalarValue(v: int) {
    0 <= v < 0xD800 || 0xE000 <= v < 0x11_0000
  }

  /** `UTF8-tail = %x80-BF` */
  predicate IsTail(b: Byte) {
    0x80 <= b <= 0xBF
  }

  /** The number of leading one bits of `b`, which `decodeURIComponent` uses to
      decide how many escapes make up one character. */
  function LeadingOnes(b: Byte): nat {
    if b < 0x80 then 0
    else if b < 0xC0 then 1
    else if b < 0xE0 then 2
    else if b < 0xF0 then 3
    else if b < 0xF8 then 4
    else if b < 0xFC then 5
    else if b < 0xFE then 6
    else if b < 0xFF then 7
    else 8
  }

  /** One `UTF8-char` of the grammar in section 4 of RFC 3629: no overlong
      forms, no surrogates, nothing above U+10FFFF. */
  predicate IsWellFormed(o: seq<Byte>) {
    if |o| == 1 then
      o[0] <= 0x7F
    else if |o| == 2 then
      0xC2 <= o[0] <= 0xDF && IsTail(o[1])
    else if |o| == 3 then
      IsTail(o[2]) &&
      ((o[0] == 0xE0 && 0xA0 <= o[1] <= 0xBF) ||
       (0xE1 <= o[0] <= 0xEC && IsTail(o[1])) ||
       (o[0] == 0xED && 0x80 <= o[1] <= 0x9F) ||
       (0xEE <= o[0] <= 0xEF && IsTail(o[1])))
    else if |o| == 4 then
      IsTail(o[2]) && IsTail(o[3]) &&
      ((o[0] == 0xF0 && 0x90 <= o[1] <= 0xBF) ||
       (0xF1 <= o[0] <= 0xF3 && IsTail(o[1])) ||
       (o[0] == 0xF4 && 0x80 <= o[1] <= 0x8F))
    else
      false
  }

  /** The code point a well-formed sequence encodes; it is always a scalar value. */
  function CodePoint(o: seq<Byte>): (v: int)
    requires IsWellFormed(o)
    ensures IsScalarValue(v)
  {
    if |o| == 1 then o[0]
    else if |o| == 2 then (o[0] as int - 0xC0) * 0x40 + (o[1] as int - 0x80)
    else if |o| == 3 then (o[0] as int - 0xE0) * 0x1000 + (o[1] as int - 0x80) * 0x40 + (o[2] as int - 0x80)
    else (o[0] as int - 0xF0) * 0x4_0000 + (o[1] as int - 0x80) * 0x1000 + (o[2] as int - 0x80) * 0x40 + (o[3] as int - 0x80)
  }

  /** The shortest UTF-8 encoding of a scalar value (section 3 of RFC 3629):
      the value's bits, six at a time from the right, spread over the bytes. */
  function Encode(v: int): (o: seq<Byte>)
    requires IsScalarValue(v)
    ensures 1 <= |o| <= 4
  {
    var q1 := v / 0x40;
    var q2 := q1 / 0x40;
    var q3 := q2 / 0x40;
    if v < 0x80 then [v]
    else if v < 0x800 then [0xC0 + q1, 0x80 + v % 0x40]
    else if v < 0x1_0000 then [0xE0 + q2, 0x80 + q1 % 0x40, 0x80 + v % 0x40]
    else [0xF0 + q3, 0x80 + q2 % 0x40, 0x80 + q1 % 0x40, 0x80 + v % 0x40]
  }

  /** Splitting off six bits undoes appending them. */
  lemma SixBits(q: int, r: int)
    requires 0 <= r < 0x40
    ensures (q * 0x40 + r) / 0x40 == q && (q * 0x40 + r) % 0x40 == r
  {
  }

  /** The encoder only produces well-formed sequences, they decode back to the
      encoded value, and the lead byte announces the length of the sequence. */
  lemma EncodeWellFormed(v: int)
    requires IsScalarValue(v)
    ensures IsWellFormed(Encode(v))
    ensures CodePoint(Encode(v)) == v
    ensures LeadingOnes(Encode(v)[0]) == if v < 0x80 then 0 else |Encode(v)|
  {
    var q1, r1 := v / 0x40, v % 0x40;
    assert v == q1 * 0x40 + r1;
    var q2, r2 := q1 / 0x40, q1 % 0x40;
    assert q1 == q2 * 0x40 + r2;
    if v < 0x80 {
    } else if v < 0x800 {
      assert Encode(v) == [0xC0 + q1, 0x80 + r1];
    } else if v < 0x1_0000 {
      EncodeThreeBytes(v, q1, r1, q2, r2);
    } else {
      var q3, r3 := q2 / 0x40, q2 % 0x40;
      assert q2 == q3 * 0x40 + r3;
      EncodeFourBytes(v, q1, r1, q2, r2, q3, r3);
    }
  }

  lemma EncodeThreeBytes(v: int, q1: int, r1: int, q2: int, r2: int)
    requires IsScalarValue(v) && 0x800 <= v < 0x1_0000
    requires q1 == v / 0x40 && r1 == v % 0x40 && v == q1 * 0x40 + r1
    requires q2 == q1 / 0x40 && r2 == q1 % 0x40 && q1 == q2 * 0x40 + r2
    ensures Encode(v) == [0xE0 + q2, 0x80 + r2, 0x80 + r1]
    ensures IsWellFormed(Encode(v)) && CodePoint(Encode(v)) == v && LeadingOnes(Encode(v)[0]) == 3
  {
  }

  lemma EncodeFourBytes(v: int, q1: int, r1: int, q2: int, r2: int, q3: int, r3: int)
    requires IsScalarValue(v) && 0x1_0000 <= v
    requires q1 == v / 0x40 && r1 == v % 0x40 && v == q1 * 0x40 + r1
    requires q2 == q1 / 0x40 && r2 == q1 % 0x40 && q1 == q2 * 0x40 + r2
    requires q3 == q2 / 0x40 && r3 == q2 % 0x40 && q2 == q3 * 0x40 + r3
    ensures Encode(v) == [0xF0 + q3, 0x80 + r3, 0x80 + r2, 0x80 + r1]
    ensures IsWellFormed(Encode(v)) && CodePoint(Encode(v)) == v && LeadingOnes(Encode(v)[0]) == 4
  {
  }

  /** Every well-formed sequence is the encoding of the code point it denotes,
      so `Encode` and `CodePoint` are inverse bijections. */
  lemma CodePointEncode(o: seq<Byte>)
    requires IsWellFormed(o)
    ensures Encode(CodePoint(o)) == o
  {
    if |o| == 2 {
      CodePointEncode2(o);
    } else if |o| == 3 {
      CodePointEncode3(o);
    } else if |o| == 4 {
      CodePointEncode4(o);
    }
  }

  lemma CodePointEncode2(o: seq<Byte>)
    requires IsWellFormed(o) && |o| == 2
    ensures Encode(CodePoint(o)) == o
  {
    SixBits(o[0] as int - 0xC0, o[1] as int - 0x80);
  }

  lemma CodePointEncode3(o: seq<Byte>)
    requires IsWellFormed(o) && |o| == 3
    ensures Encode(CodePoint(o)) == o
  {
    var v := CodePoint(o);
    var a, b, c := o[0] as int - 0xE0, o[1] as int - 0x80, o[2] as int - 0x80;
    assert v == (a * 0x40 + b) * 0x40 + c;
    SixBits(a * 0x40 + b, c);
    SixBits(a, b);
  }

  lemma CodePointEncode4(o: seq<Byte>)
    requires IsWellFormed(o) && |o| == 4
    ensures Encode(CodePoint(o)) == o
  {
    var v := CodePoint(o);
    var a, b, c, d := o[0] as int - 0xF0, o[1] as int - 0x80, o[2] as int - 0x80, o[3] as int - 0x80;
    assert v == ((a * 0x40 + b) * 0x40 + c) * 0x40 + d;
    SixBits((a * 0x40 + b) * 0x40 + c, d);
    SixBits(a * 0x40 + b, c);
    SixBits(a, b);
  }
}

=== FILE: wrappers.dfy ===
/** The optional value used throughout the model: `None` stands for JavaScript's
    `undefined`, for a thrown exception, or for a rejected input, as each
    function's documentation says. */
module Wrappers {

  datatype Option<+T> = None | Some(value: T)
}
